=== FILE: README.md ===
# Lorentz gas: ensemble coordinator and equilibrium statistics

This project models the sequential logic that sits around the particle simulator
of a two-dimensional Lorentz gas. It proves properties of that model in Dafny.

- **Ensemble coordinator** (`widget.cpp`, module `Widget`). This is a vector of
  replicas (`Model` objects). It grows by copying the last replica and shrinks
  from the back. It broadcasts parameter setters, clearing and animation steps
  to every replica in index order. When the trace is shown, each repaint saves
  the current replica, steps it 60 times with only its trace painted, and
  restores it.
- **Pressure statistics and equilibrium latch** (`window.cpp`, modules
  `SeriesOps` and `Window`). These are the sequence helpers (`operator-`,
  `slice`, `averaged`, `fmap`, `ffold`, `stop_criteria`). They also cover the
  replot step, which computes:
  - the current replica's pressure `I[i]/t[i]`;
  - the ensemble-average series;
  - the running mean;
  - the one-shot equilibrium latch;
  - the axis ranges.

The simulator replica itself is declared in `model.h`, and `model.h` is not part
of this model. Here a replica is a class `Replica.Model` that records, in
order, the parameter, step, clear, snapshot (`Save`, `Load`) and trace-only
calls made on it. The `paint`, `add` and `getNumber` calls are not recorded.
Claims about replicas are claims about those recorded calls. For example, a
broadcast setter appends one `SetNumber(n)` to every replica's log. When the
trace is shown, the repaint then appends the trace block to the current
replica's log. The series a replica reports (`getTime`, `getImpulses`)
come from that opaque engine, so `Window.Window.Replot` takes them as a
parameter.

Two abstractions carry the proofs:
- `Widget.Widget.Logs()` is the sequence of replica logs.
- `Replica.SettingsOf` gives, for a log, the last value each parameter setter
  received.

The ensemble operations are described by functions on the sequence of logs
(`Resized`, `Broadcasted`, `TraceBlock`). Lemmas show that:
- resizing is idempotent;
- the replicas' parameters stay uniform;
- the trace block leaves the trace-only flag off.

The latch is described by the function `LatchStep`. Lemmas about runs of
replots (`LatchRun`) show that the latch never un-latches, and that its time is
the window start of the first qualifying replot.

Values are exact reals. The model follows the code, including these details:
- The ensemble average divides by the total replica count, even at indices a
  short replica does not reach. Such a replica adds nothing there, but it
  still counts in the divisor (`AccumulatedIsScaledSum`).
- The window length is fixed at 20.
- The equilibrium test needs strictly more than 20 samples and always divides
  by 20.
- A new replica is made with `Model`'s copy constructor from the last one.
  The model assumes that constructor copies the whole replica state, so the
  new log equals the copied one. The constructor itself is in `model.h`,
  which is not part of this model.
- Clearing unsets the latch but keeps the latch time, which nothing resets.
- No broadcast setter (`setNumber`, `setSide`, `setAtomR`, `setElectronR`,
  `setSpeed`) checks its argument: any value is passed on to the replicas.
- Every broadcast setter, `setTrace` and `animate` end with a repaint. With
  the trace shown, the repaint runs the trace block on the current replica.
  `clear`, `setCurrentModel`, `setDefaultDirection` and `setDefaultRandom` do
  not repaint.

The preconditions are what the code needs to avoid undefined behaviour:
- a non-empty ensemble before `removeModel`;
- a non-negative ensemble size;
- a valid current index wherever a repaint reads the current replica.
  `QWidget::repaint()` calls `paintEvent` only while the widget is visible and
  updates are enabled. The repaint's requirement and its trace-block effect
  describe the window as shown on screen;
- non-zero sample times;
- a non-empty series for the current replica. `x.first()`, `x.last()` and
  `ffold`'s unconditional `vec[0]` (used for the equilibrium marker) read its
  first element;
- a time series no longer than the impulse series. The pressure loop reads
  `y[i]` for every index of the time series (`PressureSeries`).

One more precondition is an assumption about the engine, not a demand of the
code. `Replot` assumes that the current replica's impulse series is no longer
than its time series. The pressure loop would handle a time series shorter
than the impulse series by leaving the extra impulses undivided
(`PressureSeries`). With equal lengths, the current pressure, the ensemble
average and the window test stay aligned index by index.

## Model

| member | source | states |
|---|---|---|
| `SeriesOps.Diff` | Lorentz-gas-master/src/window.cpp:111-117 | with a non-empty `v2`, one element `v1[i] - v2[i]` per index of `v1`; an empty `v2` gives an empty result; needs `v2` at least as long as `v1` |
| `SeriesOps.Slice` | Lorentz-gas-master/src/window.cpp:119-124 | exactly the elements `vec[max(0,begin) .. end)` in order, of length `end - max(0,begin)` |
| `SeriesOps.InnerSumIsPrefixSum` | Lorentz-gas-master/src/window.cpp:130-135 | the inner loop of `averaged`, which adds `vec[max(0, i+j)]` for `j = -i .. 0`, computes the sum of `vec[0..i]` |
| `SeriesOps.Averaged` | Lorentz-gas-master/src/window.cpp:126-139 | same length as the input; element `i` is the mean `(vec[0] + … + vec[i]) / (i+1)` |
| `SeriesOps.AveragedWithinBounds` | Lorentz-gas-master/src/window.cpp:126-139 | if every sample lies in `[lo, hi]`, so does every running mean |
| `SeriesOps.Fmap` | Lorentz-gas-master/src/window.cpp:141-148 | same length as the input, element `i` is `f(vec[i])` |
| `SeriesOps.FoldMinIsLeast` | Lorentz-gas-master/src/window.cpp:150-157 | on a non-empty sequence, folding with `min` yields an element of the sequence that is at most every element |
| `SeriesOps.FoldMaxIsGreatest` | Lorentz-gas-master/src/window.cpp:150-157 | on a non-empty sequence, folding with `max` yields an element of the sequence that is at least every element |
| `SeriesOps.WindowTermsOfAligned` | Lorentz-gas-master/src/window.cpp:159-165 | for equal-length series, the terms the test adds are the `min(20, n)` values `abs(v1[k] - v2[k])` of the last aligned positions |
| `SeriesOps.WindowSum` | Lorentz-gas-master/src/window.cpp:159-165 | for equal-length series, the sum the test computes equals the summed absolute deviation over the last `min(20, n)` positions |
| `SeriesOps.StopCriteriaMeaning` | Lorentz-gas-master/src/window.cpp:159-165 | for equal-length series, the test holds iff that summed deviation divided by 20 (always 20, even for shorter series) is below the threshold |
| `SeriesOps.StopCriteriaOnIdentical` | Lorentz-gas-master/src/window.cpp:159-165 | a series compared with itself passes iff the threshold is positive |
| `Window.PressureSeries` | Lorentz-gas-master/src/window.cpp:178-180 | the series keeps the impulse series' length; element `i` is `I[i]/t[i]` for every sample time; impulses past the end of the time series stay undivided |
| `Window.EnsembleAverage` | Lorentz-gas-master/src/window.cpp:182-192 | the average has the requested length; element `j` is the sum, over the replicas whose both series reach `j`, of `(I_j/t_j)/N`, with `N` the total replica count |
| `Window.AccumulatedIsScaledSum` | Lorentz-gas-master/src/window.cpp:186-192 | the ensemble average at `j` equals the sum of the replicas' pressures at `j`, counting zero for replicas too short to reach `j`, divided by the total replica count |
| `Window.AverageOfEqualPressures` | Lorentz-gas-master/src/window.cpp:186-192 | when every replica reaches `j` with the same pressure `p`, the ensemble average at `j` is `p` |
| `Window.Curves` | Lorentz-gas-master/src/window.cpp:175-192 | the plotted `x` is the current replica's time series, `y` its pressure at every sample, and `y_avg` the ensemble average over the same indices |
| `Window.YRange` | Lorentz-gas-master/src/window.cpp:239-246 | every `y[i]` lies in `[ymin, ymax]`; on a non-empty `y`, `ymin` is the smaller of 100500 and the minimum of `y`, and `ymax` is the larger of -100500 and the maximum of `y`; on an empty `y` the sentinels are returned |
| `Window.LatchRunKeeps` | Lorentz-gas-master/src/window.cpp:227-232 | once the latch is set, neither its flag nor its time changes over any number of replots |
| `Window.LatchRunMonotone` | Lorentz-gas-master/src/window.cpp:227-232 | if the latch is set after some replots, later replots leave it exactly as it was |
| `Window.LatchRunFirst` | Lorentz-gas-master/src/window.cpp:227-232 | starting unset, the latch ends set iff some replot qualifies (more than 20 samples and the windowed test passes); its time is then `x[n-20]` of the first qualifying replot, and otherwise the latch is untouched |
| `Window.Window.constructor` | Lorentz-gas-master/src/window.cpp:11-24 | the window starts with an empty ensemble, the latch unset and the latch time at -1 |
| `Window.Window.SetNumber` | Lorentz-gas-master/src/window.cpp:84-86 | records the particle count that scales the equilibrium threshold |
| `Window.Window.UpdateLatch` | Lorentz-gas-master/src/window.cpp:227-232 | running `stop_criteria(y, y_avg, threshold)`, the latch becomes set iff it was set or the frame qualifies; it takes the window start time `x[n-20]` only when it goes from unset to set |
| `Window.Window.Replot` | Lorentz-gas-master/src/window.cpp:167-251 | the replot draws the pressure, ensemble average and running mean. It draws the equilibrium marker (time, min of `y`, max of `y_avg`) only if the latch was already set. It updates the latch with threshold `0.03 * n_electrons`. Its x range is the first and last sample time. Its y range is the sentinel-seeded `[ymin, ymax]` widened by 5% of its width at each end, so it covers every `y[i]` |
| `Window.Window.ClearSettings` | Lorentz-gas-master/src/window.cpp:276-292 | every replica is cleared once and the latch is unset; the latch time is kept |
| `Replica.Model.constructor` | Lorentz-gas-master/src/widget.cpp:109 | a default-constructed replica has had no calls made on it |
| `Replica.Model.Copy` | Lorentz-gas-master/src/widget.cpp:107 | a copied replica has the state of the original |
| `Widget.Resized` | Lorentz-gas-master/src/widget.cpp:120-126 | after resizing, the ensemble has exactly `size` replicas; replicas below `size` are unchanged; each added one equals the last existing replica, or a fresh 400×400 replica if there was none |
| `Widget.ResizeIdempotent` | Lorentz-gas-master/src/widget.cpp:120-126 | resizing to the current size changes nothing, so resizing twice to `n` is the same as once |
| `Widget.ResizeKeepsUniform` | Lorentz-gas-master/src/widget.cpp:104-126 | if all replicas have had the same parameters set, they still have after any resize |
| `Widget.BroadcastSettings` | Lorentz-gas-master/src/widget.cpp:143-192 | a broadcast call changes every replica's parameters alike. Uniform parameters stay uniform, and a setter leaves its value in every replica. `Step` and `Clear` are not setter calls, so the last values set stay as they were. What `Model::clear` does to the engine's own state is not visible here |
| `Widget.TraceBlockProperties` | Lorentz-gas-master/src/widget.cpp:46-60 | the trace block makes exactly 60 `Step(50)` calls, each with trace-only set; it ends with trace-only off, and the replica's parameters are unchanged |
| `Widget.Widget.constructor` | Lorentz-gas-master/src/widget.cpp:11-20 | the coordinator starts with no replicas and the trace hidden |
| `Widget.Widget.Animate` | Lorentz-gas-master/src/widget.cpp:22-27 | every replica gets exactly one `Step(50)`, on replicas `0 .. n-1` in that order, and then the repaint's calls follow: the trace block on the current replica when the trace is shown, nothing otherwise |
| `Widget.Widget.SetTrace` | Lorentz-gas-master/src/widget.cpp:29-33 | sets whether the trace is shown, then repaints: showing the trace runs the trace block once on the current replica; hiding it touches no replica |
| `Widget.Widget.PaintEvent` | Lorentz-gas-master/src/widget.cpp:35-63 | with the trace shown, the current replica alone receives the trace block; without it, no replica is touched. The calls recorded are exactly the trace block's, tagged with the current index |
| `Widget.Widget.RunTrace` | Lorentz-gas-master/src/widget.cpp:46-60 | the current replica receives `Save`, `SetPaintTraceOnly(true)`, 60 × `Step(50)`, `SetPaintTraceOnly(false)`, `Load`, in that order, and no other replica is touched |
| `Widget.RepaintKeepsSettings` | Lorentz-gas-master/src/widget.cpp:35-63 | a repaint leaves every replica's parameters as they were, so uniform parameters stay uniform |
| `Widget.Widget.AddModel` | Lorentz-gas-master/src/widget.cpp:104-113 | appends one new, distinct replica: a copy of the last replica, or a fresh one with dimensions 400×400 when the ensemble is empty; the others are kept |
| `Widget.Widget.RemoveModel` | Lorentz-gas-master/src/widget.cpp:115-118 | drops the last replica of a non-empty ensemble and keeps the rest |
| `Widget.Widget.SetEnsembleSize` | Lorentz-gas-master/src/widget.cpp:120-126 | for `size >= 0`, the ensemble ends with exactly `size` distinct replicas. The first `min(size, old size)` are the same objects as before, the rest are new, and the logs are `Resized(old logs, size)` |
| `Widget.Widget.SetCurrentModel` | Lorentz-gas-master/src/widget.cpp:128-131 | selects the current replica index |
| `Widget.Widget.SetNumber` | Lorentz-gas-master/src/widget.cpp:143-148 | every replica gets `setNumber(num)` exactly once, in index order, and then the repaint's calls follow: the trace block on the current replica when the trace is shown; the collection is unchanged |
| `Widget.Widget.SetSide` | Lorentz-gas-master/src/widget.cpp:150-155 | every replica gets `setSide(val)` exactly once, in index order, and then the repaint's calls follow: the trace block on the current replica when the trace is shown; the collection is unchanged |
| `Widget.Widget.SetAtomR` | Lorentz-gas-master/src/widget.cpp:157-162 | every replica gets `setAtomR(val)` exactly once, in index order, and then the repaint's calls follow: the trace block on the current replica when the trace is shown; the collection is unchanged |
| `Widget.Widget.SetElectronR` | Lorentz-gas-master/src/widget.cpp:164-169 | every replica gets `setElectronR(val)` exactly once, in index order, and then the repaint's calls follow: the trace block on the current replica when the trace is shown; the collection is unchanged |
| `Widget.Widget.SetSpeed` | Lorentz-gas-master/src/widget.cpp:171-176 | every replica gets `setSpeed(val)` exactly once, in index order, and then the repaint's calls follow: the trace block on the current replica when the trace is shown; the collection is unchanged |
| `Widget.Widget.Clear` | Lorentz-gas-master/src/widget.cpp:188-192 | every replica gets `clear()` exactly once, in index order, with no repaint; the collection is unchanged |

## Left out

- The collision engine, and what `Model::step`, `save`, `load`, `paint`, `add`
  and `clear` do to a replica. They live in `model.h` and `model.cpp`, which
  are not part of this model. A replica is only the log of calls made on it, so
  no snapshot round trip (`load` undoing the steps since `save`) is claimed.
- `getTime`, `getImpulses`, `getCurrentModel` and `getModel`. The series are
  produced by the engine, so `Replot` receives them as a parameter, indexed like
  the replicas.
- IEEE floating point. Values are exact reals, `0.03` is exact, and `fabs`,
  `min` and `max` are their real counterparts. No rounding, NaN or infinity is
  modelled.
- Qt plumbing:
  - signal/slot wiring and `QTimer`;
  - `togglePlay`, including the pause triggered when the latch is set, and
    `updateTogglePlayButton`;
  - `trailMode` and `keyPressEvent`;
  - `saveShot` and `getImage`;
  - the equilibrium label text, and all `QCustomPlot` graph and pen setup. `Replot` returns the curves and ranges it would hand to the
    plot.
- `Window::setEnsembleSize` (window.cpp:92-109). It saves the particle count,
  calls `clearSettings` (every replica is cleared and the latch is unset, as
  `Window.Window.ClearSettings` models), restores the count through the spin
  box (which broadcasts `setNumber` through a signal), clamps the
  current-element spin box, and forwards the size to the coordinator
  (`Widget.Widget.SetEnsembleSize`). So a resize also resets the latch. The
  sequence as a whole is not one member here, because its middle steps run
  through spin-box signals.
- `setCurrentEnsembleElement`: forwarding from a spin box.
- The parts of the `Window` constructor driven by spin boxes (the initial
  ensemble size of 10, the initial parameters). They reach the core only
  through signals.
- Window.Window.ClearSettings: models only `native->clear()` and the latch
  reset. Resetting the particle-count spin box (window.cpp:279) fires two
  signals, and only when the value changes. These effects are not modelled:
  - it broadcasts `setNumber(0)` to every replica;
  - it calls `Window::setNumber(0)` (connected at window.cpp:34), so
    `n_electrons` becomes 0, and with it the equilibrium threshold
    `0.03 * n_electrons`. The frame of `ClearSettings` keeps `nElectrons`
    unchanged.
  
  Neither are the trail checkbox, the timer and the plot reset.
- Widget.Widget.PaintEvent: models only the trace block. The `paint` calls
  between steps draw on screen and are not recorded. Neither is the unused
  `sum` counter.
- Mouse handling (`mousePressEvent`, `mouseMoveEvent`, `mouseReleaseEvent`,
  `setDefaultDirection`, `setDefaultRandom`). It uses `atan2`, `M_PI` and
  `rand()`, and it adds particles to one replica through `Model::add`, whose
  effect is not visible.
- The memory released by `delete` in `removeModel`. The empty `Widget`
  destructor never frees the remaining replicas.
- Sharing of the latch between windows: it lives in the global `equillibrium` (window.cpp:11)
  and the function-static `equillibrium_time` (window.cpp:169), so every
  `Window` would share it. The model makes both fields of each `Window`
  instance. The program builds only one window, so nothing changes there, but
  the model does not capture the sharing between windows.
- Widget.Widget.constructor: the source leaves `current_model` uninitialised,
  and so does the model (an arbitrary value).
- Window.Window.constructor: the source leaves `n_electrons` uninitialised,
  and so does the model (an arbitrary value).

=== FILE: replica.dfy ===
/** One simulator replica (the simulator's `Model` class). Its collision engine,
    snapshot slot and pressure series live in code that is not part of this
    model, so a replica is known here only by the parameter, step, clear,
    snapshot and trace-only calls made on it, recorded in order in `log`;
    painting, adding particles and queries are not recorded. */
module Replica {

  datatype Option<T> = None | Some(value: T)

  /** A call on a replica. */
  datatype Op =
    | SetDim(width: int, height: int)
    | SetNumber(number: int)
    | SetSide(side: int)
    | SetAtomR(atomR: real)
    | SetElectronR(electronR: real)
    | SetSpeed(speed: real)
    | Clear
    | Step(dt: int)
    | Save
    | Load
    | SetPaintTraceOnly(traceOnly: bool)

  /** The last value each parameter setter of a replica has received. */
  datatype Settings = Settings(
    dim: Option<(int, int)>,
    number: Option<int>,
    side: Option<int>,
    atomR: Option<real>,
    electronR: Option<real>,
    speed: Option<real>)

  const NoSettings := Settings(None, None, None, None, None, None)

  function Apply(s: Settings, op: Op): Settings
  {
    match op
    case SetDim(w, h) => s.(dim := Some((w, h)))
    case SetNumber(n) => s.(number := Some(n))
    case SetSide(v) => s.(side := Some(v))
    case SetAtomR(r) => s.(atomR := Some(r))
    case SetElectronR(r) => s.(electronR := Some(r))
    case SetSpeed(v) => s.(speed := Some(v))
    case _ => s
  }

  /** A parameter call changes a setting; stepping, clearing and the snapshot
      calls do not. */
  predicate IsSetter(op: Op)
  {
    op.SetDim? || op.SetNumber? || op.SetSide? || op.SetAtomR? || op.SetElectronR? || op.SetSpeed?
  }

  function SettingsOf(log: seq<Op>): Settings
  {
    if log == [] then NoSettings else Apply(SettingsOf(log[..|log| - 1]), log[|log| - 1])
  }

  /** The trace-only flag after `log`: the last value given to it, false if
      none was. */
  function TraceOnly(log: seq<Op>): bool
  {
    if log == [] then false
    else if log[|log| - 1].SetPaintTraceOnly? then log[|log| - 1].traceOnly
    else TraceOnly(log[..|log| - 1])
  }

  /** Number of `Step(dt)` calls in `log`. */
  function StepsOf(log: seq<Op>, dt: int): nat
  {
    if log == [] then 0
    else StepsOf(log[..|log| - 1], dt) + (if log[|log| - 1] == Step(dt) then 1 else 0)
  }

  lemma SettingsAfter(log: seq<Op>, op: Op)
    ensures SettingsOf(log + [op]) == Apply(SettingsOf(log), op)
    ensures !IsSetter(op) ==> SettingsOf(log + [op]) == SettingsOf(log)
  {
    assert (log + [op])[..|log|] == log;
  }

  lemma {:induction false} StepsOfConcat(a: seq<Op>, b: seq<Op>, dt: int)
    ensures StepsOf(a + b, dt) == StepsOf(a, dt) + StepsOf(b, dt)
    decreases |b|
  {
    if b == [] {
      assert a + b == a;
    } else {
      StepsOfConcat(a, b[..|b| - 1], dt);
      assert (a + b)[..|a + b| - 1] == a + b[..|b| - 1];
    }
  }

  /** A replica of the simulator. */
  class Model {
    var log: seq<Op>

    /** A default-constructed replica. */
    constructor ()
      ensures log == []
    {
      log := [];
    }

    /** The copy constructor: the new replica has the state of `other`. */
    constructor Copy(other: Model)
      ensures log == other.log
    {
      log := other.log;
    }

    method Perform(op: Op)
      modifies this
      ensures log == old(log) + [op]
    {
      log := log + [op];
    }
  }
}

=== FILE: series_ops.dfy ===
/** The sequence helpers that the plotting window applies to pressure series:
    element-wise difference, slicing, the running (prefix) mean, map, fold and
    the windowed equilibrium test. Values are exact reals; floating-point
    rounding is not modelled. */
module SeriesOps {

  /** Length of the window the equilibrium test looks at. */
  const DetectionLen: int := 20

  function Min(a: real, b: real): real { if b < a then b else a }

  function Max(a: real, b: real): real { if a < b then b else a }

  function Abs(x: real): real { if x < 0.0 then -x else x }

  function MaxInt(a: int, b: int): int { if a < b then b else a }

  function MinInt(a: int, b: int): int { if b < a then b else a }

  /** Left-to-right sum, the order in which an accumulating loop adds. */
  function Sum(s: seq<real>): real
  {
    if |s| == 0 then 0.0 else Sum(s[..|s| - 1]) + s[|s| - 1]
  }

  /** Element-wise difference `v1 - v2`. The loop runs over the indices of `v1`
      as long as `v2` is not empty, so it is safe only when `v2` is at least as
      long as `v1`; an empty `v2` yields an empty result. */
  function Diff(v1: seq<real>, v2: seq<real>): (r: seq<real>)
    requires |v2| == 0 || |v1| <= |v2|
    ensures |v2| == 0 ==> r == []
    ensures |v2| > 0 ==> |r| == |v1|
    ensures |v2| > 0 ==> forall i :: 0 <= i < |v1| ==> r[i] == v1[i] - v2[i]
  {
    if |v2| == 0 || |v1| == 0 then []
    else Diff(v1[..|v1| - 1], v2) + [v1[|v1| - 1] - v2[|v1| - 1]]
  }

  /** The elements of `vec` from `max(0, begin)` up to, not including, `end`. */
  function Slice(vec: seq<real>, begin: int, end: int): (r: seq<real>)
    requires MaxInt(0, begin) <= end <= |vec|
    ensures |r| == end - MaxInt(0, begin)
    ensures forall k :: 0 <= k < |r| ==> r[k] == vec[MaxInt(0, begin) + k]
  {
    vec[MaxInt(0, begin)..end]
  }

  /** The value the inner loop of the running mean holds after adding
      `vec[max(0, i + k)]` for `k` from `-i` up to `j`. */
  function InnerSum(vec: seq<real>, i: int, j: int): real
    requires 0 <= i < |vec| && -i - 1 <= j <= 0
    decreases j + i + 1
  {
    if j < -i then 0.0 else InnerSum(vec, i, j - 1) + vec[MaxInt(0, i + j)]
  }

  lemma {:induction false} InnerSumIsPrefixSum(vec: seq<real>, i: int, j: int)
    requires 0 <= i < |vec| && -i - 1 <= j <= 0
    ensures InnerSum(vec, i, j) == Sum(vec[..i + j + 1])
    decreases j + i + 1
  {
    if j >= -i {
      InnerSumIsPrefixSum(vec, i, j - 1);
      assert vec[..i + j + 1][..i + j] == vec[..i + j];
    }
  }

  /** Running mean: element `i` is the mean of `vec[0..i]`. */
  function Averaged(vec: seq<real>): (r: seq<real>)
    ensures |r| == |vec|
    ensures forall i :: 0 <= i < |vec| ==> r[i] == Sum(vec[..i + 1]) / (i + 1) as real
  {
    InnerSumsArePrefixSums(vec);
    seq(|vec|, i requires 0 <= i < |vec| => InnerSum(vec, i, 0) / (i + 1) as real)
  }

  lemma InnerSumsArePrefixSums(vec: seq<real>)
    ensures forall i :: 0 <= i < |vec| ==> InnerSum(vec, i, 0) == Sum(vec[..i + 1])
  {
    forall i | 0 <= i < |vec| ensures InnerSum(vec, i, 0) == Sum(vec[..i + 1]) {
      InnerSumIsPrefixSum(vec, i, 0);
    }
  }

  lemma {:induction false} SumBounds(s: seq<real>, lo: real, hi: real)
    requires forall k :: 0 <= k < |s| ==> lo <= s[k] <= hi
    ensures |s| as real * lo <= Sum(s) <= |s| as real * hi
  {
    if |s| > 0 {
      SumBounds(s[..|s| - 1], lo, hi);
    }
  }

  /** The running mean stays within any bounds that hold for every sample. */
  lemma AveragedWithinBounds(vec: seq<real>, lo: real, hi: real)
    requires forall k :: 0 <= k < |vec| ==> lo <= vec[k] <= hi
    ensures forall i :: 0 <= i < |vec| ==> lo <= Averaged(vec)[i] <= hi
  {
    var r := Averaged(vec);
    forall i | 0 <= i < |vec| ensures lo <= r[i] <= hi {
      var m := (i + 1) as real;
      SumBounds(vec[..i + 1], lo, hi);
      Unscale(Sum(vec[..i + 1]), m, lo, hi);
    }
  }

  lemma Unscale(s: real, m: real, lo: real, hi: real)
    requires m > 0.0 && m * lo <= s <= m * hi
    ensures lo <= s / m <= hi
  {
  }

  /** `f` applied to every element, in order. */
  function Fmap<T, U>(f: T -> U, vec: seq<T>): (r: seq<U>)
    ensures |r| == |vec|
    ensures forall i :: 0 <= i < |vec| ==> r[i] == f(vec[i])
  {
    if |vec| == 0 then [] else Fmap(f, vec[..|vec| - 1]) + [f(vec[|vec| - 1])]
  }

  /** Left fold seeded with the first element; the source reads `vec[0]`
      unconditionally, so the sequence must not be empty. */
  function Ffold<T>(f: (T, T) -> T, vec: seq<T>): T
    requires |vec| > 0
  {
    if |vec| == 1 then vec[0] else f(Ffold(f, vec[..|vec| - 1]), vec[|vec| - 1])
  }

  /** Folding with `min` gives an element that no element is below. */
  lemma {:induction false} FoldMinIsLeast(vec: seq<real>)
    requires |vec| > 0
    ensures Ffold(Min, vec) in vec
    ensures forall i :: 0 <= i < |vec| ==> Ffold(Min, vec) <= vec[i]
  {
    if |vec| > 1 {
      FoldMinIsLeast(vec[..|vec| - 1]);
      assert forall i :: 0 <= i < |vec| - 1 ==> vec[..|vec| - 1][i] == vec[i];
    }
  }

  /** Folding with `max` gives an element that no element is above. */
  lemma {:induction false} FoldMaxIsGreatest(vec: seq<real>)
    requires |vec| > 0
    ensures Ffold(Max, vec) in vec
    ensures forall i :: 0 <= i < |vec| ==> vec[i] <= Ffold(Max, vec)
  {
    if |vec| > 1 {
      FoldMaxIsGreatest(vec[..|vec| - 1]);
      assert forall i :: 0 <= i < |vec| - 1 ==> vec[..|vec| - 1][i] == vec[i];
    }
  }

  /** What the equilibrium test demands of its inputs: the tail window of `v2`
      is at least as long as that of `v1`, or `v2` is empty. */
  predicate WindowsFit(v1: seq<real>, v2: seq<real>)
  {
    |v2| == 0 || MinInt(DetectionLen, |v1|) <= MinInt(DetectionLen, |v2|)
  }

  /** The absolute differences the windowed test adds up: those of the last
      (up to) `DetectionLen` samples of each series, aligned from the start of
      each slice. */
  function WindowTerms(v1: seq<real>, v2: seq<real>): seq<real>
    requires WindowsFit(v1, v2)
  {
    var n := DetectionLen;
    Fmap(Abs, Diff(Slice(v1, |v1| - n, |v1|), Slice(v2, |v2| - n, |v2|)))
  }

  /** The windowed test: the summed absolute difference of the last (up to)
      `DetectionLen` samples, divided by `DetectionLen`, is below `threshold`. */
  function StopCriteria(v1: seq<real>, v2: seq<real>, threshold: real): bool
    requires WindowsFit(v1, v2)
  {
    Sum(WindowTerms(v1, v2)) / DetectionLen as real < threshold
  }

  /** Reference definition: the sum of `|v1[k] - v2[k]|` for `lo <= k < hi`. */
  function Deviation(v1: seq<real>, v2: seq<real>, lo: int, hi: int): real
    requires 0 <= lo <= hi <= |v1| && hi <= |v2|
    decreases hi - lo
  {
    if hi == lo then 0.0 else Deviation(v1, v2, lo, hi - 1) + Abs(v1[hi - 1] - v2[hi - 1])
  }

  lemma {:induction false} SumOfAbsDiffs(v1: seq<real>, v2: seq<real>, lo: int, hi: int, d: seq<real>)
    requires 0 <= lo <= hi <= |v1| && hi <= |v2|
    requires |d| == hi - lo
    requires forall k :: 0 <= k < |d| ==> d[k] == Abs(v1[lo + k] - v2[lo + k])
    ensures Sum(d) == Deviation(v1, v2, lo, hi)
    decreases hi - lo
  {
    if hi > lo {
      SumOfAbsDiffs(v1, v2, lo, hi - 1, d[..|d| - 1]);
    }
  }

  lemma WindowTermsOfAligned(v1: seq<real>, v2: seq<real>, lo: int, terms: seq<real>)
    requires |v1| == |v2| && lo == |v1| - MinInt(DetectionLen, |v1|)
    requires WindowsFit(v1, v2) && terms == WindowTerms(v1, v2)
    ensures |terms| == |v1| - lo
    ensures forall k :: 0 <= k < |terms| ==> terms[k] == Abs(v1[lo + k] - v2[lo + k])
  {
    var n := DetectionLen;
    assert MaxInt(0, |v1| - n) == lo;
    var s1 := Slice(v1, |v1| - n, |v1|);
    var s2 := Slice(v2, |v2| - n, |v2|);
    if |v2| > 0 {
      var d := Diff(s1, s2);
      assert |d| == |v1| - lo;
      assert forall k :: 0 <= k < |d| ==> d[k] == v1[lo + k] - v2[lo + k];
    }
  }

  /** For two series of equal length (as the window compares them), the test
      holds exactly when the absolute deviation over the last `min(20, n)`
      aligned samples, divided by 20 even when fewer samples exist, is below
      the threshold. */
  lemma StopCriteriaMeaning(v1: seq<real>, v2: seq<real>, threshold: real)
    requires |v1| == |v2|
    ensures WindowsFit(v1, v2)
    ensures StopCriteria(v1, v2, threshold) <==>
      Deviation(v1, v2, |v1| - MinInt(DetectionLen, |v1|), |v1|) / DetectionLen as real < threshold
  {
    WindowSum(v1, v2);
  }

  lemma WindowSum(v1: seq<real>, v2: seq<real>)
    requires |v1| == |v2|
    ensures WindowsFit(v1, v2)
    ensures Sum(WindowTerms(v1, v2)) == Deviation(v1, v2, |v1| - MinInt(DetectionLen, |v1|), |v1|)
  {
    var lo := |v1| - MinInt(DetectionLen, |v1|);
    var terms := WindowTerms(v1, v2);
    WindowTermsOfAligned(v1, v2, lo, terms);
    SumOfAbsDiffs(v1, v2, lo, |v1|, terms);
  }

  /** A series compared with itself passes the test exactly when the threshold
      is positive. */
  lemma StopCriteriaOnIdentical(v: seq<real>, threshold: real)
    ensures WindowsFit(v, v)
    ensures StopCriteria(v, v, threshold) <==> 0.0 < threshold
  {
    StopCriteriaMeaning(v, v, threshold);
    DeviationOfIdentical(v, |v| - MinInt(DetectionLen, |v|), |v|);
  }

  lemma {:induction false} DeviationOfIdentical(v: seq<real>, lo: int, hi: int)
    requires 0 <= lo <= hi <= |v|
    ensures Deviation(v, v, lo, hi) == 0.0
    decreases hi - lo
  {
    if hi > lo {
      DeviationOfIdentical(v, lo, hi - 1);
    }
  }
}

=== FILE: widget.dfy ===
/** The ensemble coordinator (the simulator's `Widget` class): an ordered collection of
    replicas that it grows by copying the last one and shrinks from the back,
    and to which it broadcasts parameters, animation steps and clearing. The
    trace drawn on each repaint runs the current replica forward tentatively
    between a `Save` and a `Load`. */
module Widget {
  import opened Replica

  /** Size of a replica created when the ensemble is empty. */
  const Width: int := 400
  const Height: int := 400
  /** Time step of one animation tick, and total time covered by a trace. */
  const RefreshRate: int := 50
  const TraceLength: int := 3000

  /** A call made on the replica at position `index` of the ensemble. */
  datatype Call = Call(index: int, op: Op)

  // ---------------------------------------------------------------------
  // The ensemble seen as the sequence of its replicas' call logs.

  /** The log a newly added replica starts with: a copy of the last replica,
      or a fresh replica given the default dimensions. */
  function Seed(logs: seq<seq<Op>>): seq<Op>
  {
    if |logs| > 0 then logs[|logs| - 1] else [SetDim(Width, Height)]
  }

  /** The ensemble after it is brought to `size` replicas. */
  function Resized(logs: seq<seq<Op>>, size: nat): (r: seq<seq<Op>>)
    ensures |r| == size
    ensures forall k :: 0 <= k < size && k < |logs| ==> r[k] == logs[k]
    ensures forall k :: |logs| <= k < size ==> r[k] == Seed(logs)
  {
    if size <= |logs| then logs[..size] else logs + seq(size - |logs|, _ => Seed(logs))
  }

  /** Every replica receives `op` once more. */
  function Broadcasted(logs: seq<seq<Op>>, op: Op): (r: seq<seq<Op>>)
    ensures |r| == |logs|
    ensures forall k :: 0 <= k < |logs| ==> r[k] == logs[k] + [op]
  {
    seq(|logs|, k requires 0 <= k < |logs| => logs[k] + [op])
  }

  /** The calls `op` on replicas `0, 1, ..., n - 1`, in that order. */
  function Sweep(n: nat, op: Op): (r: seq<Call>)
    ensures |r| == n
    ensures forall k :: 0 <= k < n ==> r[k] == Call(k, op)
  {
    seq(n, k requires 0 <= k < n => Call(k, op))
  }

  /** The calls `ops`, all on replica `index`. */
  function Tagged(index: int, ops: seq<Op>): (r: seq<Call>)
    ensures |r| == |ops|
    ensures forall k :: 0 <= k < |ops| ==> r[k] == Call(index, ops[k])
  {
    seq(|ops|, k requires 0 <= k < |ops| => Call(index, ops[k]))
  }

  /** The calls a repaint with the trace shown makes on the current replica. */
  function TraceBlock(): seq<Op>
  {
    [Save, SetPaintTraceOnly(true)]
      + seq(TraceLength / RefreshRate, _ => Step(RefreshRate))
      + [SetPaintTraceOnly(false), Load]
  }

  /** The logs after a repaint: with the trace shown, the replica at
      `current` has run the trace block; otherwise nothing changes. */
  function Repainted(logs: seq<seq<Op>>, show: bool, current: int): (r: seq<seq<Op>>)
    requires 0 <= current < |logs|
    ensures |r| == |logs|
    ensures forall k :: 0 <= k < |logs| && !(show && k == current) ==> r[k] == logs[k]
    ensures show ==> r[current] == logs[current] + TraceBlock()
  {
    if show then logs[current := logs[current] + TraceBlock()] else logs
  }

  /** The calls a repaint makes. */
  function RepaintCalls(show: bool, current: int): seq<Call>
  {
    if show then Tagged(current, TraceBlock()) else []
  }

  lemma TaggedSnoc(index: int, ops: seq<Op>, op: Op)
    ensures Tagged(index, ops + [op]) == Tagged(index, ops) + [Call(index, op)]
  {
  }

  /** All replicas have had the same parameters set. */
  ghost predicate Uniform(logs: seq<seq<Op>>)
  {
    forall i, j :: 0 <= i < |logs| && 0 <= j < |logs| ==> SettingsOf(logs[i]) == SettingsOf(logs[j])
  }

  // ---------------------------------------------------------------------
  // Properties of the ensemble operations.

  /** Resizing to the size the ensemble already has changes nothing; in
      particular, resizing twice to the same size is the same as once. */
  lemma ResizeIdempotent(logs: seq<seq<Op>>, size: nat)
    ensures Resized(logs, |logs|) == logs
    ensures Resized(Resized(logs, size), size) == Resized(logs, size)
  {
  }

  lemma ResizeGrows(logs: seq<seq<Op>>, m: nat)
    requires |logs| <= m
    ensures Seed(Resized(logs, m)) == Seed(logs)
    ensures Resized(logs, m) + [Seed(Resized(logs, m))] == Resized(logs, m + 1)
  {
  }

  lemma ResizeShrinks(logs: seq<seq<Op>>, m: nat)
    requires 0 < m <= |logs|
    ensures Resized(logs, m)[..m - 1] == Resized(logs, m - 1)
  {
  }

  /** A resize keeps every replica's parameters in step with the others. */
  lemma ResizeKeepsUniform(logs: seq<seq<Op>>, size: nat)
    requires Uniform(logs)
    ensures Uniform(Resized(logs, size))
  {
    var r := Resized(logs, size);
    forall i, j | 0 <= i < size && 0 <= j < size
      ensures SettingsOf(r[i]) == SettingsOf(r[j])
    {
      if |logs| > 0 {
        assert SettingsOf(r[i]) == SettingsOf(logs[if i < |logs| then i else |logs| - 1]);
        assert SettingsOf(r[j]) == SettingsOf(logs[if j < |logs| then j else |logs| - 1]);
      }
    }
  }

  /** A broadcast call acts on each replica's parameters alike: uniform
      parameters stay uniform, and after a broadcast setter every replica holds
      the broadcast value. */
  lemma BroadcastSettings(logs: seq<seq<Op>>, op: Op)
    ensures forall k :: 0 <= k < |logs| ==>
      SettingsOf(Broadcasted(logs, op)[k]) == Apply(SettingsOf(logs[k]), op)
    ensures Uniform(logs) ==> Uniform(Broadcasted(logs, op))
    ensures !IsSetter(op) ==> forall k :: 0 <= k < |logs| ==>
      SettingsOf(Broadcasted(logs, op)[k]) == SettingsOf(logs[k])
  {
    forall k | 0 <= k < |logs|
      ensures SettingsOf(Broadcasted(logs, op)[k]) == Apply(SettingsOf(logs[k]), op)
      ensures !IsSetter(op) ==> SettingsOf(Broadcasted(logs, op)[k]) == SettingsOf(logs[k])
    {
      SettingsAfter(logs[k], op);
    }
  }

  lemma {:induction false} StepsOfRepeated(n: nat, dt: int)
    ensures StepsOf(seq(n, _ => Step(dt)), dt) == n
  {
    if n > 0 {
      StepsOfRepeated(n - 1, dt);
      assert seq(n, _ => Step(dt))[..n - 1] == seq(n - 1, _ => Step(dt));
    }
  }

  lemma {:induction false} TraceOnlyAcross(log: seq<Op>, steps: seq<Op>)
    requires TraceOnly(log)
    requires forall k :: 0 <= k < |steps| ==> !steps[k].SetPaintTraceOnly?
    ensures TraceOnly(log + steps)
    decreases |steps|
  {
    if steps == [] {
      assert log + steps == log;
    } else {
      TraceOnlyAcross(log, steps[..|steps| - 1]);
      assert (log + steps)[..|log + steps| - 1] == log + steps[..|steps| - 1];
    }
  }

  lemma {:induction false} SettingsAcross(log: seq<Op>, ops: seq<Op>)
    requires forall k :: 0 <= k < |ops| ==> !IsSetter(ops[k])
    ensures SettingsOf(log + ops) == SettingsOf(log)
    decreases |ops|
  {
    if ops != [] {
      SettingsAcross(log, ops[..|ops| - 1]);
      assert log + ops == (log + ops[..|ops| - 1]) + [ops[|ops| - 1]];
      SettingsAfter(log + ops[..|ops| - 1], ops[|ops| - 1]);
    } else {
      assert log + ops == log;
    }
  }

  /** The trace block runs exactly `TraceLength / RefreshRate` (60) steps of
      `RefreshRate` each, every one of them with the trace-only flag set; it
      leaves the flag cleared and the replica's parameters as they were. */
  lemma TraceBlockProperties(log: seq<Op>)
    ensures StepsOf(TraceBlock(), RefreshRate) == 60
    ensures forall k :: 0 <= k < |TraceBlock()| && TraceBlock()[k].Step? ==>
      TraceOnly(log + TraceBlock()[..k])
    ensures !TraceOnly(log + TraceBlock())
    ensures SettingsOf(log + TraceBlock()) == SettingsOf(log)
  {
    var steps := seq(TraceLength / RefreshRate, _ => Step(RefreshRate));
    var head := [Save, SetPaintTraceOnly(true)];
    var tail := [SetPaintTraceOnly(false), Load];
    var b := TraceBlock();
    assert b == head + steps + tail;
    StepsOfConcat(head + steps, tail, RefreshRate);
    StepsOfConcat(head, steps, RefreshRate);
    StepsOfRepeated(60, RefreshRate);
    assert StepsOf(head, RefreshRate) == 0 by {
      assert head[..1] == [Save];
      assert [Save][..0] == [];
    }
    assert StepsOf(tail, RefreshRate) == 0 by {
      assert tail[..1] == [SetPaintTraceOnly(false)];
      assert [SetPaintTraceOnly(false)][..0] == [];
    }
    forall k | 0 <= k < |b| && b[k].Step? ensures TraceOnly(log + b[..k]) {
      assert (log + head)[..|log| + 1] == log + [Save];
      assert TraceOnly(log + head);
      assert b[..k] == head + steps[..k - 2];
      assert log + b[..k] == (log + head) + steps[..k - 2];
      TraceOnlyAcross(log + head, steps[..k - 2]);
    }
    assert (log + b)[..|log + b| - 1] == log + (head + steps) + [SetPaintTraceOnly(false)];
    assert (log + b) == (log + head + steps + [SetPaintTraceOnly(false)]) + [Load];
    SettingsAcross(log, b);
  }

  /** A repaint leaves every replica's parameters as they were, so a
      repaint after a broadcast keeps the replicas' parameters uniform. */
  lemma RepaintKeepsSettings(logs: seq<seq<Op>>, show: bool, current: int)
    requires 0 <= current < |logs|
    ensures forall k :: 0 <= k < |logs| ==>
      SettingsOf(Repainted(logs, show, current)[k]) == SettingsOf(logs[k])
    ensures Uniform(logs) ==> Uniform(Repainted(logs, show, current))
  {
    if show {
      TraceBlockProperties(logs[current]);
    }
  }

  // ---------------------------------------------------------------------
  // The coordinator itself.

  class Widget {
    var models: seq<Model>
    var currentModel: int
    var showTrace: bool
    /** The calls made on existing replicas by the broadcasts and repaints
        of this coordinator, in order; the dimensions a fresh replica is
        given when it is created are in its log but not here. */
    ghost var calls: seq<Call>

    /** Each replica is a distinct object. */
    ghost predicate Valid()
      reads this
    {
      forall i, j :: 0 <= i < j < |models| ==> models[i] != models[j]
    }

    function Logs(): (r: seq<seq<Op>>)
      reads this, models
      ensures |r| == |models|
      ensures forall k :: 0 <= k < |models| ==> r[k] == models[k].log
    {
      seq(|models|, k reads this, models requires 0 <= k < |models| => models[k].log)
    }

    /** The ensemble starts empty with the trace hidden; the current index is
        not initialised. */
    constructor ()
      ensures Valid()
      ensures models == [] && !showTrace && calls == []
    {
      models := [];
      showTrace := false;
      calls := [];
    }

    /** Makes `op` on replica `i`. */
    method Invoke(i: int, op: Op)
      requires Valid() && 0 <= i < |models|
      modifies this`calls, models[i]
      ensures models[i].log == old(models[i].log) + [op]
      ensures forall k :: 0 <= k < |models| && k != i ==> models[k].log == old(models[k].log)
      ensures calls == old(calls) + [Call(i, op)]
    {
      models[i].Perform(op);
      calls := calls + [Call(i, op)];
    }

    /** Makes `op` on every replica, in index order. */
    method InvokeAll(op: Op)
      requires Valid()
      modifies this`calls, models
      ensures Logs() == Broadcasted(old(Logs()), op)
      ensures calls == old(calls) + Sweep(|models|, op)
    {
      for i := 0 to |models|
        invariant forall k :: 0 <= k < i ==> models[k].log == old(models[k].log) + [op]
        invariant forall k :: i <= k < |models| ==> models[k].log == old(models[k].log)
        invariant calls == old(calls) + Sweep(i, op)
      {
        Invoke(i, op);
      }
    }

    /** One animation tick: every replica advances by `RefreshRate`, in
        index order, and the coordinator repaints. */
    method Animate()
      requires Valid() && 0 <= currentModel < |models|
      modifies this`calls, models
      ensures Logs() == Repainted(Broadcasted(old(Logs()), Step(RefreshRate)), showTrace, currentModel)
      ensures calls == old(calls) + Sweep(|models|, Step(RefreshRate)) + RepaintCalls(showTrace, currentModel)
    {
      InvokeAll(Step(RefreshRate));
      PaintEvent();
    }

    /** Shows or hides the trace and repaints, so showing it runs the trace
        block once straight away. */
    method SetTrace(on: bool)
      requires Valid() && 0 <= currentModel < |models|
      modifies this`showTrace, this`calls, models[currentModel]
      ensures showTrace == on
      ensures Logs() == Repainted(old(Logs()), on, currentModel)
      ensures calls == old(calls) + RepaintCalls(on, currentModel)
    {
      showTrace := on;
      PaintEvent();
    }

    /** The trace part of a repaint: when the trace is shown, the current
        replica is saved, stepped 60 times with only its trace painted, and
        restored; no other replica is touched. */
    method PaintEvent()
      requires Valid() && 0 <= currentModel < |models|
      modifies this`calls, models[currentModel]
      ensures Logs() == Repainted(old(Logs()), showTrace, currentModel)
      ensures calls == old(calls) + RepaintCalls(showTrace, currentModel)
    {
      if showTrace {
        RunTrace(currentModel);
      }
    }

    /** The trace block on replica `c`. */
    method RunTrace(c: int)
      requires Valid() && 0 <= c < |models|
      modifies this`calls, models[c]
      ensures forall k :: 0 <= k < |models| && k != c ==> models[k].log == old(models[k].log)
      ensures models[c].log == old(models[c].log) + TraceBlock()
      ensures calls == old(calls) + Tagged(c, TraceBlock())
    {
      var step := RefreshRate;
      var length := TraceLength / RefreshRate;
      ghost var done: seq<Op> := [];
      Invoke(c, Save);
      TaggedSnoc(c, done, Save);
      done := done + [Save];
      Invoke(c, SetPaintTraceOnly(true));
      TaggedSnoc(c, done, SetPaintTraceOnly(true));
      done := done + [SetPaintTraceOnly(true)];
      for i := 1 to length + 1
        invariant forall k :: 0 <= k < |models| && k != c ==> models[k].log == old(models[k].log)
        invariant done == [Save, SetPaintTraceOnly(true)] + seq(i - 1, _ => Step(step))
        invariant models[c].log == old(models[c].log) + done
        invariant calls == old(calls) + Tagged(c, done)
      {
        Invoke(c, Step(step));
        TaggedSnoc(c, done, Step(step));
        done := done + [Step(step)];
        assert seq(i, _ => Step(step)) == seq(i - 1, _ => Step(step)) + [Step(step)];
      }
      Invoke(c, SetPaintTraceOnly(false));
      TaggedSnoc(c, done, SetPaintTraceOnly(false));
      done := done + [SetPaintTraceOnly(false)];
      Invoke(c, Load);
      TaggedSnoc(c, done, Load);
      done := done + [Load];
      assert done == TraceBlock();
    }

    /** Appends a copy of the last replica, or a fresh 400 x 400 replica when
        the ensemble is empty. */
    method AddModel()
      requires Valid()
      modifies this`models
      ensures Valid()
      ensures |models| == old(|models|) + 1 && models[..old(|models|)] == old(models)
      ensures fresh(models[|models| - 1])
      ensures Logs() == old(Logs()) + [Seed(old(Logs()))]
    {
      ghost var before := Logs();
      var model: Model;
      if |models| > 0 {
        model := new Model.Copy(models[|models| - 1]);
      } else {
        model := new Model();
        model.Perform(SetDim(Width, Height));
      }
      assert model.log == Seed(before);
      models := models + [model];
      assert Logs() == before + [Seed(before)];
    }

    /** Drops the last replica; there must be one. */
    method RemoveModel()
      requires Valid() && |models| > 0
      modifies this`models
      ensures Valid()
      ensures models == old(models)[..|old(models)| - 1]
      ensures Logs() == old(Logs())[..|old(models)| - 1]
    {
      models := models[..|models| - 1];
    }

    /** Grows or shrinks the ensemble to exactly `size` replicas: replicas
        below `size` are kept as they are, new ones are copies of the last. */
    method SetEnsembleSize(size: int)
      requires Valid() && size >= 0
      modifies this`models
      ensures Valid()
      ensures |models| == size
      ensures forall k :: 0 <= k < size && k < old(|models|) ==> models[k] == old(models[k])
      ensures forall k :: old(|models|) <= k < size ==> fresh(models[k])
      ensures Logs() == Resized(old(Logs()), size)
    {
      while size > |models|
        invariant Valid()
        invariant old(|models|) <= |models| <= size || |models| == old(|models|)
        invariant forall k :: 0 <= k < old(|models|) ==> models[k] == old(models[k])
        invariant forall k :: old(|models|) <= k < |models| ==> fresh(models[k])
        invariant Logs() == Resized(old(Logs()), |models|)
        decreases size - |models|
      {
        ResizeGrows(old(Logs()), |models|);
        AddModel();
      }
      while size < |models|
        invariant Valid()
        invariant size <= |models| <= old(|models|) || |models| == size
        invariant forall k :: 0 <= k < |models| && k < old(|models|) ==> models[k] == old(models[k])
        invariant forall k :: old(|models|) <= k < |models| ==> fresh(models[k])
        invariant Logs() == Resized(old(Logs()), |models|)
      {
        ResizeShrinks(old(Logs()), |models|);
        RemoveModel();
      }
    }

    method SetCurrentModel(idx: int)
      modifies this`currentModel
      ensures currentModel == idx
    {
      currentModel := idx;
    }

    /** The parameter setters: each passes its value to every replica, in
        index order, and then repaints. */
    method SetNumber(num: int)
      requires Valid() && 0 <= currentModel < |models|
      modifies this`calls, models
      ensures Logs() == Repainted(Broadcasted(old(Logs()), Op.SetNumber(num)), showTrace, currentModel)
      ensures calls == old(calls) + Sweep(|models|, Op.SetNumber(num)) + RepaintCalls(showTrace, currentModel)
    {
      InvokeAll(Op.SetNumber(num));
      PaintEvent();
    }

    method SetSide(val: int)
      requires Valid() && 0 <= currentModel < |models|
      modifies this`calls, models
      ensures Logs() == Repainted(Broadcasted(old(Logs()), Op.SetSide(val)), showTrace, currentModel)
      ensures calls == old(calls) + Sweep(|models|, Op.SetSide(val)) + RepaintCalls(showTrace, currentModel)
    {
      InvokeAll(Op.SetSide(val));
      PaintEvent();
    }

    method SetAtomR(val: real)
      requires Valid() && 0 <= currentModel < |models|
      modifies this`calls, models
      ensures Logs() == Repainted(Broadcasted(old(Logs()), Op.SetAtomR(val)), showTrace, currentModel)
      ensures calls == old(calls) + Sweep(|models|, Op.SetAtomR(val)) + RepaintCalls(showTrace, currentModel)
    {
      InvokeAll(Op.SetAtomR(val));
      PaintEvent();
    }

    method SetElectronR(val: real)
      requires Valid() && 0 <= currentModel < |models|
      modifies this`calls, models
      ensures Logs() == Repainted(Broadcasted(old(Logs()), Op.SetElectronR(val)), showTrace, currentModel)
      ensures calls == old(calls) + Sweep(|models|, Op.SetElectronR(val)) + RepaintCalls(showTrace, currentModel)
    {
      InvokeAll(Op.SetElectronR(val));
      PaintEvent();
    }

    method SetSpeed(val: real)
      requires Valid() && 0 <= currentModel < |models|
      modifies this`calls, models
      ensures Logs() == Repainted(Broadcasted(old(Logs()), Op.SetSpeed(val)), showTrace, currentModel)
      ensures calls == old(calls) + Sweep(|models|, Op.SetSpeed(val)) + RepaintCalls(showTrace, currentModel)
    {
      InvokeAll(Op.SetSpeed(val));
      PaintEvent();
    }

    method Clear()
      requires Valid()
      modifies this`calls, models
      ensures Logs() == Broadcasted(old(Logs()), Op.Clear)
      ensures calls == old(calls) + Sweep(|models|, Op.Clear)
    {
      InvokeAll(Op.Clear);
    }
  }
}

=== FILE: window.dfy ===
/** The statistics of the plotting window: the pressure series of the current
    replica, the ensemble-average series, the running mean, the vertical axis
    range, and the one-shot equilibrium latch that compares the current
    replica's pressure with the ensemble average. */
module Window {
  import opened SeriesOps
  import opened Replica
  import Widget

  /** Starting values of the range scan: the maximum starts at `-Sentinel`,
      the minimum at `Sentinel`. */
  const Sentinel: real := 100500.0

  /** Share of the particle count that the equilibrium threshold is. */
  const ThresholdPerElectron: real := 0.03

  /** The sample times and cumulative impulses a replica reports. */
  datatype Series = Series(time: seq<real>, impulses: seq<real>)

  predicate NonZeroTimes(s: Series)
  {
    forall j :: 0 <= j < |s.time| ==> s.time[j] != 0.0
  }

  predicate AllNonZeroTimes(ms: seq<Series>)
  {
    forall i :: 0 <= i < |ms| ==> NonZeroTimes(ms[i])
  }

  /** Both series of `s` have a sample at index `j`. */
  predicate Reaches(s: Series, j: int)
  {
    0 <= j < |s.time| && j < |s.impulses|
  }

  /** Pressure: cumulative impulse over elapsed time. */
  function PressureAt(s: Series, j: int): real
    requires NonZeroTimes(s) && Reaches(s, j)
  {
    s.impulses[j] / s.time[j]
  }

  /** The ensemble average at index `j` accumulated over the replicas `ms`,
      each replica that reaches `j` adding its pressure divided by `n`, the
      number of replicas in the whole ensemble. */
  function Accumulated(ms: seq<Series>, j: int, n: nat): real
    requires |ms| <= n && AllNonZeroTimes(ms)
  {
    if |ms| == 0 then 0.0
    else
      var last := ms[|ms| - 1];
      Accumulated(ms[..|ms| - 1], j, n)
        + (if Reaches(last, j) then PressureAt(last, j) / n as real else 0.0)
  }

  /** What each replica contributes at index `j` before the division: its
      pressure if it reaches `j`, zero otherwise. */
  function Contributions(ms: seq<Series>, j: int): (r: seq<real>)
    requires AllNonZeroTimes(ms)
    ensures |r| == |ms|
    ensures forall i :: 0 <= i < |ms| && Reaches(ms[i], j) ==> r[i] == PressureAt(ms[i], j)
    ensures forall i :: 0 <= i < |ms| && !Reaches(ms[i], j) ==> r[i] == 0.0
  {
    seq(|ms|, i requires 0 <= i < |ms| => if Reaches(ms[i], j) then PressureAt(ms[i], j) else 0.0)
  }

  /** The accumulated average is the sum of the contributions divided by the
      ensemble size: a replica too short to reach `j` adds nothing but still
      counts in the divisor. */
  lemma {:induction false} AccumulatedIsScaledSum(ms: seq<Series>, j: int, n: nat)
    requires |ms| <= n && n > 0 && AllNonZeroTimes(ms)
    ensures Accumulated(ms, j, n) == Sum(Contributions(ms, j)) / n as real
  {
    if |ms| > 0 {
      var init := ms[..|ms| - 1];
      var last := ms[|ms| - 1];
      var c := if Reaches(last, j) then PressureAt(last, j) else 0.0;
      assert AllNonZeroTimes(init);
      AccumulatedIsScaledSum(init, j, n);
      assert Contributions(ms, j)[..|ms| - 1] == Contributions(init, j);
      assert Sum(Contributions(ms, j)) == Sum(Contributions(init, j)) + c;
      SumOfQuotients(Sum(Contributions(init, j)), c, n as real);
    }
  }

  lemma SumOfQuotients(a: real, c: real, m: real)
    requires m > 0.0
    ensures a / m + c / m == (a + c) / m
  {
  }

  /** When every replica reaches `j` with the same pressure `p`, the ensemble
      average at `j` is `p`. */
  lemma AverageOfEqualPressures(ms: seq<Series>, j: int, p: real)
    requires |ms| > 0 && AllNonZeroTimes(ms)
    requires forall i :: 0 <= i < |ms| ==> Reaches(ms[i], j) && PressureAt(ms[i], j) == p
    ensures Accumulated(ms, j, |ms|) == p
  {
    AccumulatedIsScaledSum(ms, j, |ms|);
    SumBounds(Contributions(ms, j), p, p);
    assert Sum(Contributions(ms, j)) == |ms| as real * p;
    assert (|ms| as real * p) / |ms| as real == p;
  }

  /** The pressure series of one replica: `impulses[i] / time[i]` for every
      sample time; samples of `impulses` past the end of `time` are left as
      they are. */
  method PressureSeries(time: seq<real>, impulses: seq<real>) returns (y: seq<real>)
    requires |time| <= |impulses|
    requires forall i :: 0 <= i < |time| ==> time[i] != 0.0
    ensures |y| == |impulses|
    ensures forall i :: 0 <= i < |time| ==> y[i] == impulses[i] / time[i]
    ensures forall i :: |time| <= i < |impulses| ==> y[i] == impulses[i]
  {
    y := impulses;
    for i := 0 to |time|
      invariant |y| == |impulses|
      invariant forall k :: 0 <= k < i ==> y[k] == impulses[k] / time[k]
      invariant forall k :: i <= k < |impulses| ==> y[k] == impulses[k]
    {
      y := y[i := y[i] / time[i]];
    }
  }

  /** The ensemble-average series of length `len`. */
  method EnsembleAverage(len: nat, ensemble: seq<Series>) returns (yAvg: seq<real>)
    requires AllNonZeroTimes(ensemble)
    ensures |yAvg| == len
    ensures forall j :: 0 <= j < len ==> yAvg[j] == Accumulated(ensemble, j, |ensemble|)
  {
    var n := |ensemble|;
    yAvg := seq(len, _ => 0.0);
    var i := 0;
    while i < n
      invariant 0 <= i <= n
      invariant |yAvg| == len
      invariant forall j :: 0 <= j < len ==> yAvg[j] == Accumulated(ensemble[..i], j, n)
    {
      var cur := ensemble[i];
      assert ensemble[..i + 1][..i] == ensemble[..i];
      assert ensemble[..i + 1][i] == cur;
      var j := 0;
      while j < |yAvg| && j < |cur.impulses| && j < |cur.time|
        invariant 0 <= j <= len
        invariant |yAvg| == len
        invariant forall k :: 0 <= k < j ==> yAvg[k] == Accumulated(ensemble[..i + 1], k, n)
        invariant forall k :: j <= k < len ==> yAvg[k] == Accumulated(ensemble[..i], k, n)
      {
        yAvg := yAvg[j := yAvg[j] + (cur.impulses[j] / cur.time[j]) / n as real];
        j := j + 1;
      }
      i := i + 1;
    }
    assert ensemble[..n] == ensemble;
  }

  /** The scan for the vertical plot range, starting from the sentinels. */
  method YRange(y: seq<real>) returns (ymin: real, ymax: real)
    ensures forall i :: 0 <= i < |y| ==> ymin <= y[i] <= ymax
    ensures |y| > 0 ==> ymin == Min(Sentinel, Ffold(Min, y)) && ymax == Max(-Sentinel, Ffold(Max, y))
    ensures |y| == 0 ==> ymin == Sentinel && ymax == -Sentinel
  {
    ymax := -Sentinel;
    ymin := Sentinel;
    for i := 0 to |y|
      invariant forall k :: 0 <= k < i ==> ymin <= y[k] <= ymax
      invariant i > 0 ==> ymin == Min(Sentinel, Ffold(Min, y[..i])) && ymax == Max(-Sentinel, Ffold(Max, y[..i]))
      invariant i == 0 ==> ymin == Sentinel && ymax == -Sentinel
    {
      assert y[..i + 1][..i] == y[..i];
      if y[i] > ymax {
        ymax := y[i];
      }
      if y[i] < ymin {
        ymin := y[i];
      }
    }
    assert y[..|y|] == y;
  }

  // ---------------------------------------------------------------------
  // The equilibrium latch.

  /** The latch: whether equilibrium has been reached, and when. */
  datatype Latch = Latch(reached: bool, time: real)

  /** What one replot feeds the latch: sample times, the current replica's
      pressure, the ensemble average and the threshold. */
  datatype Frame = Frame(x: seq<real>, y: seq<real>, yAvg: seq<real>, threshold: real)

  predicate FrameOk(f: Frame)
  {
    |f.x| == |f.y| == |f.yAvg|
  }

  predicate AllFramesOk(frames: seq<Frame>)
  {
    forall k :: 0 <= k < |frames| ==> FrameOk(frames[k])
  }

  /** The frame would set an unset latch: there are more samples than the
      window holds, and the mean absolute deviation of the pressure from the
      ensemble average over the last `DetectionLen` samples is below the
      threshold. */
  predicate Qualifies(f: Frame)
    requires FrameOk(f)
  {
    |f.y| > DetectionLen
      && Deviation(f.y, f.yAvg, |f.y| - DetectionLen, |f.y|) / DetectionLen as real < f.threshold
  }

  /** Time at the start of the frame's window. */
  function WindowStart(f: Frame): real
    requires FrameOk(f) && |f.x| >= DetectionLen
  {
    f.x[|f.x| - DetectionLen]
  }

  /** One replot's update of the latch. */
  function LatchStep(l: Latch, f: Frame): Latch
    requires FrameOk(f)
  {
    if Qualifies(f) && !l.reached then Latch(true, WindowStart(f)) else l
  }

  /** The latch after a run of replots with no clearing in between. */
  function LatchRun(l: Latch, frames: seq<Frame>): Latch
    requires AllFramesOk(frames)
  {
    if |frames| == 0 then l
    else LatchStep(LatchRun(l, frames[..|frames| - 1]), frames[|frames| - 1])
  }

  lemma {:induction false} LatchRunSplit(l: Latch, a: seq<Frame>, b: seq<Frame>)
    requires AllFramesOk(a) && AllFramesOk(b)
    ensures AllFramesOk(a + b)
    ensures LatchRun(l, a + b) == LatchRun(LatchRun(l, a), b)
    decreases |b|
  {
    if |b| == 0 {
      assert a + b == a;
    } else {
      LatchRunSplit(l, a, b[..|b| - 1]);
      assert (a + b)[..|a + b| - 1] == a + b[..|b| - 1];
    }
  }

  /** Once reached, the latch keeps its flag and its time through any number
      of replots. */
  lemma {:induction false} LatchRunKeeps(l: Latch, frames: seq<Frame>)
    requires AllFramesOk(frames) && l.reached
    ensures LatchRun(l, frames) == l
  {
    if |frames| > 0 {
      LatchRunKeeps(l, frames[..|frames| - 1]);
    }
  }

  /** The latch never un-latches: if it is set after some replots, it is set
      after any later ones. */
  lemma LatchRunMonotone(l: Latch, frames: seq<Frame>, i: nat)
    requires AllFramesOk(frames) && i <= |frames|
    requires LatchRun(l, frames[..i]).reached
    ensures LatchRun(l, frames) == LatchRun(l, frames[..i])
  {
    assert frames == frames[..i] + frames[i..];
    LatchRunSplit(l, frames[..i], frames[i..]);
    LatchRunKeeps(LatchRun(l, frames[..i]), frames[i..]);
  }

  /** `k` is the first frame that qualifies. */
  predicate FirstQualifying(frames: seq<Frame>, k: int)
    requires AllFramesOk(frames)
  {
    0 <= k < |frames| && Qualifies(frames[k]) && forall j :: 0 <= j < k ==> !Qualifies(frames[j])
  }

  /** Starting unset, the latch ends set exactly when some replot qualifies,
      and its time is then the window start of the first qualifying one. */
  lemma {:induction false} LatchRunFirst(l: Latch, frames: seq<Frame>)
    requires AllFramesOk(frames) && !l.reached
    ensures LatchRun(l, frames).reached <==> exists k :: 0 <= k < |frames| && Qualifies(frames[k])
    ensures !LatchRun(l, frames).reached ==> LatchRun(l, frames) == l
    ensures LatchRun(l, frames).reached ==>
      exists k :: FirstQualifying(frames, k) && LatchRun(l, frames).time == WindowStart(frames[k])
  {
    if |frames| > 0 {
      var init := frames[..|frames| - 1];
      var last := frames[|frames| - 1];
      LatchRunFirst(l, init);
      assert forall k :: 0 <= k < |init| ==> init[k] == frames[k];
      if LatchRun(l, init).reached {
        var k :| FirstQualifying(init, k) && LatchRun(l, init).time == WindowStart(init[k]);
        assert FirstQualifying(frames, k);
      } else if Qualifies(last) {
        assert FirstQualifying(frames, |frames| - 1);
      } else {
        assert forall k :: 0 <= k < |frames| ==> !Qualifies(frames[k]);
      }
    }
  }

  // ---------------------------------------------------------------------
  // The window.

  /** The vertical line drawn at the equilibrium time, from `low` to `high`. */
  datatype Marker = Marker(time: real, low: real, high: real)

  /** What one replot draws: the current replica's pressure `y`, the ensemble
      average `yAvg` and the running mean of `y`, all against `x`; the
      equilibrium marker, if any; and the two axis ranges. */
  datatype Plot = Plot(
    x: seq<real>,
    y: seq<real>,
    yAvg: seq<real>,
    running: seq<real>,
    marker: Option<Marker>,
    xRange: (real, real),
    yRange: (real, real))

  /** The sample times and pressure of replica `current`, and the
      ensemble-average series over the same indices. */
  method Curves(ensemble: seq<Series>, current: nat) returns (x: seq<real>, y: seq<real>, yAvg: seq<real>)
    requires current < |ensemble| && AllNonZeroTimes(ensemble)
    requires |ensemble[current].time| == |ensemble[current].impulses|
    ensures x == ensemble[current].time
    ensures |y| == |x| && forall i :: 0 <= i < |y| ==> y[i] == PressureAt(ensemble[current], i)
    ensures |yAvg| == |y| && forall j :: 0 <= j < |yAvg| ==> yAvg[j] == Accumulated(ensemble, j, |ensemble|)
  {
    var cur := ensemble[current];
    x := cur.time;
    y := PressureSeries(cur.time, cur.impulses);
    yAvg := EnsembleAverage(|y|, ensemble);
  }

  class Window {
    var native: Widget.Widget
    var nElectrons: int
    /** The equilibrium latch. */
    var equilibrium: bool
    var equilibriumTime: real

    /** A window over an empty ensemble, with the latch unset; the particle
        count is not initialised. */
    constructor ()
      ensures fresh(native) && native.Valid() && native.models == []
      ensures !equilibrium && equilibriumTime == -1.0
    {
      native := new Widget.Widget();
      equilibrium := false;
      equilibriumTime := -1.0;
    }

    method SetNumber(newNumber: int)
      modifies this`nElectrons
      ensures nElectrons == newNumber
    {
      nElectrons := newNumber;
    }

    /** One replot. `ensemble` holds the series that the replicas of `native`
        report, in order; the current replica's series are its entry at
        `native.currentModel`. */
    method Replot(ensemble: seq<Series>) returns (p: Plot)
      requires |ensemble| == |native.models| && 0 <= native.currentModel < |ensemble|
      requires AllNonZeroTimes(ensemble)
      requires |ensemble[native.currentModel].time| == |ensemble[native.currentModel].impulses| > 0
      modifies this`equilibrium, this`equilibriumTime
      ensures var cur := ensemble[native.currentModel];
        && p.x == cur.time
        && |p.y| == |cur.time|
        && (forall i :: 0 <= i < |p.y| ==> p.y[i] == PressureAt(cur, i))
      ensures |p.yAvg| == |p.y|
      ensures forall j :: 0 <= j < |p.yAvg| ==> p.yAvg[j] == Accumulated(ensemble, j, |ensemble|)
      ensures p.running == Averaged(p.y)
      ensures p.marker == if old(equilibrium)
        then Some(Marker(old(equilibriumTime), Ffold(Min, p.y), Ffold(Max, p.yAvg)))
        else None
      ensures Latch(equilibrium, equilibriumTime) ==
        LatchStep(old(Latch(equilibrium, equilibriumTime)),
                  Frame(p.x, p.y, p.yAvg, ThresholdPerElectron * nElectrons as real))
      ensures p.xRange == (p.x[0], p.x[|p.x| - 1])
      ensures forall i :: 0 <= i < |p.y| ==> p.yRange.0 <= p.y[i] <= p.yRange.1
      ensures var lo, hi := Min(Sentinel, Ffold(Min, p.y)), Max(-Sentinel, Ffold(Max, p.y));
        p.yRange == (lo - (hi - lo) * 0.05, hi + (hi - lo) * 0.05)
    {
      var x, y, yAvg := Curves(ensemble, native.currentModel);
      var running := Averaged(y);

      var marker := None;
      if equilibrium {
        marker := Some(Marker(equilibriumTime, Ffold(Min, y), Ffold(Max, yAvg)));
      }

      UpdateLatch(Frame(x, y, yAvg, ThresholdPerElectron * nElectrons as real));

      var ymin, ymax := YRange(y);
      var gap := (ymax - ymin) * 0.05;
      p := Plot(x, y, yAvg, running, marker, (x[0], x[|x| - 1]), (ymin - gap, ymax + gap));
    }

    /** The latch update at the end of a replot: set it, at the start of the
        window, when the frame qualifies and it is not set yet. */
    method UpdateLatch(f: Frame)
      requires FrameOk(f)
      modifies this`equilibrium, this`equilibriumTime
      ensures equilibrium <==> old(equilibrium) || Qualifies(f)
      ensures old(equilibrium) || !Qualifies(f) ==> equilibriumTime == old(equilibriumTime)
      ensures !old(equilibrium) && Qualifies(f) ==> equilibriumTime == WindowStart(f)
      ensures Latch(equilibrium, equilibriumTime) == LatchStep(old(Latch(equilibrium, equilibriumTime)), f)
    {
      StopCriteriaMeaning(f.y, f.yAvg, f.threshold);
      if StopCriteria(f.y, f.yAvg, f.threshold) && |f.y| > DetectionLen && !equilibrium {
        equilibrium := true;
        equilibriumTime := f.x[|f.x| - DetectionLen];
      }
    }

    /** Clearing: every replica is cleared and the latch is unset. The latch
        time is kept; it is shown only while the latch is set. */
    method ClearSettings()
      requires native.Valid()
      modifies this`equilibrium, native`calls, native.models
      ensures !equilibrium && equilibriumTime == old(equilibriumTime)
      ensures native.Logs() == Widget.Broadcasted(old(native.Logs()), Clear)
    {
      native.Clear();
      equilibrium := false;
    }
  }
}
